=== FILE: README.md ===
# Flow aggregation service — verified model of the aggregation engine

This project models the core of a small flow-log aggregation service
(`fas/views.py`). The service takes batches of flow-log objects with the fields
`src_app`, `dest_app`, `vpc_id`, `bytes_tx`, `bytes_rx` and `hour`. It keeps
one record per aggregation key in the `Flowlog` table, and returns the records
of one hour on request.

- `Validator.dfy` holds the limits (`MAX_INTVAL` = 2^31−1, `MAX_APP_LEN` = 20,
  `MAX_RECORDS` = 10000), the decoded row (`Row`, a map from field name to
  `Value`), the flow log (`FlowLog`), and `check_intval`, `check_slen` and
  `parse_row`.
- `KeyDeriver.dfy` covers Python's `str` on naturals (`NatToDecimal`), the
  `int()` that reads an ASCII digit string (`ParseDecimal`), and the hash key
  `src_app + dest_app + vpc_id + str(hour)`.
- `Aggregation.dfy` holds `sum_safe` and the merge-or-insert of one row
  (`UpsertRow`). It also holds the whole `flows_post` loop as a fold over the
  rows (`IngestRows`), the invariant every table keeps (`StoreInvariant`), and
  the lemmas about batches.
- `Query.dfy` holds `flows_get`, a validated hour followed by a filter over the
  table, and the read-after-write scenarios.
- `FlowService.dfy` holds the table as an object (`FlowTable`, whose `records`
  field is a `map` from hash key to `FlowLog`). Its `FlowsPost` method is the
  imperative loop of `flows_post`, with `continue` on invalid rows and an early
  return on a refused insert. Its contract equates the final status and table
  with `IngestRows` on the old table.

Two behaviours of the code deserve a note:

- **Capacity.** The insert test is `count() > MAX_RECORDS`. So a table of
  exactly 10000 records still takes a new key. The proved bound is
  `MAX_RECORDS + 1` (`StoreInvariant`), and `CapacityAdmitsOneMore` shows that
  this bound is reached.
- **Key collisions.** The key has no separator, so it is not injective
  (`HashKeyNotInjective`). A colliding row is merged into the record that is
  already stored, and that record keeps its own names and hour. As a result,
  ingest order matters when keys collide (`OrderMattersOnCollision`). Bytes
  can also end up under another hour (`HourCollisionHidesBytes`). A batch
  completes exactly when the table has room for all its new keys
  (`CompletesIff`), so either order of a batch completes when the other does
  (`CompletionCommutes`). When a collision-free batch completes, its two
  orders also leave the same table (`IngestCommutes`). A batch that stops at
  capacity may keep different rows in the two orders.

## Model

| member | source | states |
|---|---|---|
| Validator.CheckIntval | fas/views.py:44-48 | true exactly when the value is an integer in [0, 2^31−1] |
| Validator.CheckSlen | fas/views.py:51-55 | true exactly when the value is a string of 1 to 20 characters |
| Validator.ParseRow | fas/views.py:65-85 | returns a flow log only when all six fields are present and valid, and that flow log carries the row's values unchanged; every row that carries a valid flow log yields exactly it |
| Validator.ParseRowOf | fas/views.py:65-85 | the message object of a flow log parses back to that flow log exactly when the flow log is valid |
| Validator.ParseRowNeedsEveryField | fas/views.py:69-70 | a row missing any one of the six field names is rejected |
| Validator.ValidatorBoundaries | fas/views.py:44-55 | 20 characters pass, 0 and 21 fail, a non-string fails; 0 and 2^31−1 pass, −1, 2^31 and a non-integer fail |
| KeyDeriver.ParseDecimal | fas/views.py:100-102 | int() of an ASCII digit string, leading zeros allowed: the value is below 10^length (`LeadingZerosValue` shows "007" reads as 7), and it is the inverse of `NatToDecimal` (`DecimalRoundTrip`) |
| KeyDeriver.NatToDecimal | fas/views.py:133 | str(hour) is a non-empty string of ASCII digits with no leading zero: only 0 renders with a leading "0", and it renders as "0" |
| KeyDeriver.DecimalRoundTrip | fas/views.py:100-102 | int(str(n)) == n for every natural n |
| KeyDeriver.DecimalInjective | fas/views.py:133 | different hours render as different digit strings |
| KeyDeriver.DecimalLengthOfIntval | fas/views.py:48 | every accepted integer has at most ten decimal digits |
| KeyDeriver.HashKey | fas/views.py:133 | the key is the three names and str(hour) concatenated with no separator; a deterministic function whose properties are the lemmas below: it splits back into names and hour (`HashKeySplits`), it has 4 to 70 characters (`KeyLength`), the names fix the hour (`HashKeyNamesFixHour`), and it is not injective (`HashKeyNotInjective`, `HashKeyCrossesHours`) |
| KeyDeriver.HashKeySplits | fas/views.py:133 | a key begins with the three names concatenated, and the rest is a digit string that reads back as the hour |
| KeyDeriver.KeyLength | fas/models.py:5 | the key of a valid flow log has 4 to 70 characters, so it fits the 100-character key column |
| KeyDeriver.HashKeyNamesFixHour | fas/views.py:133 | with the three names fixed, the key determines the hour |
| KeyDeriver.HashKeyNotInjective | fas/views.py:133 | ("ab","c","v",1) and ("a","bc","v",1) give the same key |
| KeyDeriver.HashKeyCrossesHours | fas/views.py:133 | ("a","b","v1",1) and ("a","b","v",11) give the same key, across two hours |
| Aggregation.SumSafe | fas/views.py:88-92 | the result is the smaller of MAX_INTVAL and a+b |
| Aggregation.SumSafeInRange | fas/views.py:88-92 | for accepted inputs the capped sum is accepted and at least each input |
| Aggregation.SumSafeCommutesAssociates | fas/views.py:88-92 | capped addition of non-negative values is commutative and associative |
| Aggregation.SumSafeAbsorbs | fas/views.py:137-138 | capping a running total at each step equals capping the total once |
| Aggregation.UpsertRow | fas/views.py:133-145 | an existing key gets only its two counters replaced by capped sums (new bytes first); a new key is inserted with the row unchanged, unless the table holds more than MAX_RECORDS records, which is Full; no other key changes |
| Aggregation.UpsertCounter | fas/views.py:134-144 | saving one row adds its bytes, capped, to its own key's counter and leaves every other key's counter as it was |
| Aggregation.ApplyRow | fas/views.py:123-125 | an invalid row leaves the table unchanged |
| Aggregation.IngestRows | fas/views.py:122-147 | the batch never answers BadRequest, never removes a key, and stops with InsufficientStorage only when the table holds more than MAX_RECORDS records |
| Aggregation.UpsertPreservesInvariant | fas/views.py:134-145 | saving one row keeps the table invariant: at most MAX_RECORDS+1 records, all valid, each under its own key |
| Aggregation.ApplyRowPreservesInvariant | fas/views.py:123-145 | one row, valid or not, keeps the table invariant when it is saved |
| Aggregation.IngestPreservesInvariant | fas/views.py:122-147 | every batch, complete or stopped, keeps the table invariant |
| Aggregation.IngestAppend | fas/views.py:122-147 | one batch xs+ys acts as xs then ys, unless xs stops at capacity |
| Aggregation.InvalidRowSkipped | fas/views.py:123-125 | an invalid row changes nothing and processing goes on with the next row |
| Aggregation.IngestCons | fas/views.py:122-147 | the first row decides the first step; the remaining rows start from its result |
| Aggregation.IngestFrom | fas/views.py:122-147 | processing the rows from position i on is the step on row i followed by the rows after it, which is what one turn of the loop does |
| Aggregation.PrefixAfterSavedRow | fas/views.py:122-147 | when the first row is saved and the next i rows then complete, the first i+1 rows complete from the original table with the same final table |
| Aggregation.RefusedRow | fas/views.py:139-142 | a stopped batch names the row at which it stopped: the rows before it were saved and its insert was refused by a full table |
| Aggregation.ApplyRowKeys | fas/views.py:123-144 | one row adds at most one key; it is refused exactly when its key is new and the table holds more than MAX_RECORDS records; otherwise the keys grow by its key and the size by one exactly when that key is new |
| Aggregation.CompletesIff | fas/views.py:122-147 | a batch completes exactly when it brings no new key, or when the table's size plus the number of new keys is at most MAX_RECORDS+1 |
| Aggregation.CompletionCommutes | fas/views.py:122-147 | xs+ys completes exactly when ys+xs completes |
| Aggregation.IngestStopsAtCapacity | fas/views.py:139-142 | a stopped batch has saved exactly the rows before one row whose insert the full table refuses |
| Aggregation.CapacityAdmitsOneMore | fas/views.py:141 | a table of exactly MAX_RECORDS records takes a new key and reaches MAX_RECORDS+1 |
| Aggregation.CapacityRefusesNewKey | fas/views.py:139-142 | with more than MAX_RECORDS records a new key ends the call with the table unchanged and later rows unread |
| Aggregation.FullTableStillMerges | fas/views.py:134-138 | a row whose key is stored is merged however full the table is, adding no key |
| Aggregation.ApplyRowTotals | fas/views.py:134-144 | one saved row adds its bytes under its key, capped, and adds its key |
| Aggregation.IngestTotals | fas/views.py:122-147 | after a complete batch, the keys are the old keys plus the valid rows' keys, and each counter is min(MAX_INTVAL, old value + sum of the valid rows' values for that key) |
| Aggregation.IngestKeepsIdentity | fas/views.py:134-138 | a stored record keeps its names and hour through any batch |
| Aggregation.IngestNewRecordSource | fas/views.py:143-144 | a record created by the batch has the names and hour of one of its valid rows with that key |
| Aggregation.CommutesCounter | fas/views.py:137-138 | when xs+ys completes, ys+xs holds the same keys and each counter ends the same |
| Aggregation.CommutesIdentity | fas/views.py:133-144 | without collisions, xs+ys and ys+xs give each key the same names and hour |
| Aggregation.CommutesAt | fas/views.py:122-147 | without collisions and when xs+ys completes, a key held after either order is held after both, with the same record |
| Aggregation.IngestCommutes | fas/views.py:122-147 | without key collisions, when xs+ys completes, ys+xs leaves the same table |
| Aggregation.TwoRowsOneKey | fas/views.py:133-145 | on an empty table, two valid rows with one key give one record: the first row with the summed counters |
| Aggregation.OrderMattersOnCollision | fas/views.py:133-138 | two valid rows with one key but different names or hour, on an empty table, leave different tables in the two orders |
| Aggregation.CollidingRowsExist | fas/views.py:133 | two valid rows with different names and one key exist, so the order effect above does occur |
| Query.FlowsGet | fas/views.py:95-108 | the query is accepted exactly when the hour parameter is present, non-empty, all digits and at most MAX_INTVAL; then it returns exactly the stored records of that hour |
| Query.StoredRecordsDistinct | fas/views.py:106 | in a table that keeps the invariant no two keys hold the same record, so the result set loses nothing |
| Query.QueryEveryHour | fas/views.py:99-106 | the decimal rendering of every accepted hour is accepted and selects exactly the records of that hour |
| Query.QueryOneRecord | fas/views.py:99-106 | a table of one record answers a query of an accepted hour with that record when the hour matches and with nothing otherwise |
| Query.QueryRejectsMalformedHour | fas/views.py:99-101 | a missing, empty, signed or non-numeric hour is a bad request |
| Query.QueryHourLimit | fas/views.py:100 | the rendering of MAX_INTVAL is accepted, that of MAX_INTVAL+1 is a bad request |
| Query.LeadingZerosValue | fas/views.py:100-102 | "007" and "7" are both digit strings and both read as 7 |
| Query.QueryLeadingZeros | fas/views.py:100-102 | "007" asks for the same hour as "7" |
| Query.QueryAfterIngest | fas/views.py:99-147 | after a collision-free batch on an empty table, a query of a valid row's hour returns its names and hour with the capped sums of its key |
| Query.QueryAfterIngestExact | fas/views.py:99-147 | after a collision-free batch that completes on an empty table, the answer for an accepted hour is exactly the set of the valid rows of that hour with their names and hour and the capped sums of their key, and nothing else |
| Query.SingleRowRoundTrip | fas/views.py:99-147 | one valid row ingested into an empty table comes back alone from a query of its hour |
| Query.ExampleMessage | fas/views.py:13-18 | the two example rows come back as one record with bytes 300 and 1500 |
| Query.HourCollisionMerges | fas/views.py:133-138 | ("a","b","v",11) ingested after ("a","b","v1",1) leaves one hour-1 record holding both rows' bytes |
| Query.HourCollisionHidesBytes | fas/views.py:133 | ("a","b","v",11) is merged into the hour-1 record of ("a","b","v1",1); a query of hour 11 finds nothing |
| FlowService.FlowTable.constructor | fas/models.py:4-12 | a new table is empty and keeps the table invariant |
| FlowService.FlowTable.FlowsPost | fas/views.py:111-147 | a malformed body is a bad request with the table unchanged; otherwise the status and new table are those of IngestRows on the old table, the invariant holds, and no key is lost |

## Left out

- Django plumbing is not modelled: the `flows` method dispatch, `index`, the routes in `fas/urls.py`, and the building of `HttpResponse`/`JsonResponse`. Outcomes are the `Status` and `QueryResult` datatypes.
- `json.loads` is a library call. Its failure is the `Malformed` payload. Its success is the decoded row sequence.
- The ORM is not modelled. The `Flowlog` table is a `map` from hash key to `FlowLog`; `get`, `count`, `save` and `filter` are map lookup, size, update and comprehension.
- Concurrency is not modelled. Each request runs alone, so the race between `count()` and `save()` is absent.
- Python's dynamic typing is not modelled. A `bool` counts as an `int` in Python. A row may be a non-dict, the top-level JSON value may be a non-list, and `isdigit`/`int` accept non-ASCII digits. None of these is modelled. Hour digits are ASCII `'0'..'9'`.
- Validator.CheckSlen: a non-string in a string field is rejected. Python instead raises (`len` on a value without a length, or the concatenation at fas/views.py:133 for a list or dict name), which ends the call with a server error. When a check that runs earlier in `parse_row` already fails, the row is skipped, as in the model.
- Query.FlowsGet: the result is a set, because the database gives no order. `StoredRecordsDistinct` shows that no record is lost by this.
- The database column types in `fas/models.py` (`IntegerField`, `CharField` lengths) are not enforced by the model. The validator's limits keep every stored value within them (`KeyLength`, `StoreInvariant`).

=== FILE: Aggregation.dfy ===
/**
 * The write path of fas/views.py: sum_safe, the merge-or-insert of one parsed
 * row into the keyed store, and the batch loop of flows_post as a fold over
 * the rows. The store is the Flowlog table, keyed by hash key.
 */
module Aggregation {
  import opened Wrappers
  import opened Validator
  import opened KeyDeriver

  /** The Flowlog table: hash key to stored flow log. */
  type Store = map<string, FlowLog>

  /** The outcome of a POST, as the transport reports it. */
  datatype Status = Ok | BadRequest | InsufficientStorage

  datatype Outcome = Outcome(status: Status, store: Store)

  /** sum_safe: the sum, capped at MAX_INTVAL. */
  function SumSafe(a: int, b: int): (r: int)
    ensures r <= MAX_INTVAL && r <= a + b
    ensures r == a + b || r == MAX_INTVAL
  {
    if a + b < MAX_INTVAL then a + b else MAX_INTVAL
  }

  /** On accepted values the capped sum stays accepted and never falls below an operand. */
  lemma SumSafeInRange(a: int, b: int)
    requires 0 <= a <= MAX_INTVAL && 0 <= b <= MAX_INTVAL
    ensures 0 <= SumSafe(a, b) <= MAX_INTVAL
    ensures a <= SumSafe(a, b) && b <= SumSafe(a, b)
  {
  }

  /** Capped addition of non-negative values is commutative and associative. */
  lemma SumSafeCommutesAssociates(a: int, b: int, c: int)
    requires 0 <= a && 0 <= b && 0 <= c
    ensures SumSafe(a, b) == SumSafe(b, a)
    ensures SumSafe(SumSafe(a, b), c) == SumSafe(a, SumSafe(b, c))
  {
  }

  /** The names and hour of a flow log: what a merge never changes. */
  predicate SameIdentity(f: FlowLog, g: FlowLog) {
    f.srcApp == g.srcApp && f.destApp == g.destApp && f.vpcId == g.vpcId && f.hour == g.hour
  }

  /** The two byte counters. */
  datatype Counter = Tx | Rx

  function Get(f: FlowLog, c: Counter): int {
    match c
    case Tx => f.bytesTx
    case Rx => f.bytesRx
  }

  /** The result of saving one parsed row: the new table, or Full when an insert is refused. */
  datatype Upsert = Saved(store: Store) | Full

  /**
   * One row of the flows_post loop: merge into the record under the row's key,
   * or insert a new record unless the table already holds more than MAX_RECORDS.
   */
  function UpsertRow(store: Store, p: FlowLog): (r: Upsert)
    requires ValidFlow(p)
    ensures r.Full? <==> KeyOf(p) !in store && |store| > MAX_RECORDS
    ensures r.Saved? ==> r.store.Keys == store.Keys + {KeyOf(p)}
    ensures r.Saved? ==> forall k :: k in store && k != KeyOf(p) ==> r.store[k] == store[k]
    ensures r.Saved? && KeyOf(p) !in store ==> r.store[KeyOf(p)] == p
    ensures r.Saved? && KeyOf(p) in store ==>
      var before, after := store[KeyOf(p)], r.store[KeyOf(p)];
      && SameIdentity(after, before)
      && after.bytesTx == SumSafe(p.bytesTx, before.bytesTx)
      && after.bytesRx == SumSafe(p.bytesRx, before.bytesRx)
  {
    var key := KeyOf(p);
    if key in store then
      var obj := store[key];
      Saved(store[key := obj.(bytesTx := SumSafe(p.bytesTx, obj.bytesTx),
                              bytesRx := SumSafe(p.bytesRx, obj.bytesRx))])
    else if |store| > MAX_RECORDS then Full
    else Saved(store[key := p])
  }

  /** One row of the batch: an invalid row leaves the table as it is. */
  function ApplyRow(store: Store, row: Row): (r: Upsert)
    ensures ParseRow(row).None? ==> r == Saved(store)
  {
    match ParseRow(row)
    case None => Saved(store)
    case Some(p) => UpsertRow(store, p)
  }

  /**
   * The flows_post loop over a decoded batch: invalid rows are skipped, valid
   * rows are saved in order, and a refused insert ends the call with the rows
   * before it kept.
   */
  function IngestRows(store: Store, rows: seq<Row>): (r: Outcome)
    ensures r.status != BadRequest
    ensures store.Keys <= r.store.Keys
    ensures r.status == InsufficientStorage ==> |r.store| > MAX_RECORDS
    decreases |rows|
  {
    if rows == [] then Outcome(Ok, store)
    else
      match ApplyRow(store, rows[0])
      case Full => Outcome(InsufficientStorage, store)
      case Saved(next) => IngestRows(next, rows[1..])
  }

  /**
   * What every table the service builds satisfies: at most MAX_RECORDS + 1
   * records, each valid and stored under its own key.
   */
  predicate StoreInvariant(store: Store) {
    && |store| <= MAX_RECORDS + 1
    && forall k :: k in store ==> ValidFlow(store[k]) && k == KeyOf(store[k])
  }

  lemma UpsertPreservesInvariant(store: Store, p: FlowLog)
    requires StoreInvariant(store) && ValidFlow(p)
    requires UpsertRow(store, p).Saved?
    ensures StoreInvariant(UpsertRow(store, p).store)
  {
    var key := KeyOf(p);
    var after := UpsertRow(store, p).store;
    if key in store {
      SumSafeInRange(p.bytesTx, store[key].bytesTx);
      SumSafeInRange(p.bytesRx, store[key].bytesRx);
    }
    assert |after| <= MAX_RECORDS + 1;
    forall k | k in after
      ensures ValidFlow(after[k]) && k == KeyOf(after[k])
    {
      if k != key {
        assert after[k] == store[k];
      }
    }
  }

  lemma ApplyRowPreservesInvariant(store: Store, row: Row)
    requires StoreInvariant(store)
    requires ApplyRow(store, row).Saved?
    ensures StoreInvariant(ApplyRow(store, row).store)
  {
    if ParseRow(row).Some? {
      UpsertPreservesInvariant(store, ParseRow(row).value);
    }
  }

  /** The table invariant holds after any batch, whether it completes or stops at capacity. */
  lemma {:induction false} IngestPreservesInvariant(store: Store, rows: seq<Row>)
    requires StoreInvariant(store)
    ensures StoreInvariant(IngestRows(store, rows).store)
    decreases |rows|
  {
    if rows != [] {
      match ApplyRow(store, rows[0])
      case Full =>
      case Saved(next) =>
        if ParseRow(rows[0]).Some? {
          UpsertPreservesInvariant(store, ParseRow(rows[0]).value);
        }
        IngestPreservesInvariant(next, rows[1..]);
    }
  }

  /** Two batches in a row act as their concatenation, unless the first stops at capacity. */
  lemma {:induction false} IngestAppend(store: Store, xs: seq<Row>, ys: seq<Row>)
    ensures IngestRows(store, xs + ys) ==
      (var o := IngestRows(store, xs); if o.status == Ok then IngestRows(o.store, ys) else o)
    decreases |xs|
  {
    if xs == [] {
      assert xs + ys == ys;
    } else {
      assert (xs + ys)[0] == xs[0];
      assert (xs + ys)[1..] == xs[1..] + ys;
      match ApplyRow(store, xs[0])
      case Full =>
      case Saved(next) => IngestAppend(next, xs[1..], ys);
    }
  }

  /** An invalid row leaves the table as it is and the batch goes on. */
  lemma InvalidRowSkipped(store: Store, row: Row, rest: seq<Row>)
    requires ParseRow(row).None?
    ensures IngestRows(store, [row] + rest) == IngestRows(store, rest)
  {
    assert ([row] + rest)[1..] == rest;
  }

  /** The batch from row i on: row i decides the first step. */
  lemma IngestFrom(store: Store, rows: seq<Row>, i: nat)
    requires i < |rows|
    ensures IngestRows(store, rows[i..]) ==
      match ApplyRow(store, rows[i])
      case Full => Outcome(InsufficientStorage, store)
      case Saved(next) => IngestRows(next, rows[i + 1..])
  {
    assert rows[i..] == [rows[i]] + rows[i + 1..];
    IngestCons(store, rows[i], rows[i + 1..]);
  }

  /** The first row decides the first step of a batch; the rest follow. */
  lemma IngestCons(store: Store, row: Row, rows: seq<Row>)
    ensures IngestRows(store, [row] + rows) ==
      match ApplyRow(store, row)
      case Full => Outcome(InsufficientStorage, store)
      case Saved(next) => IngestRows(next, rows)
  {
    assert ([row] + rows)[0] == row && ([row] + rows)[1..] == rows;
  }

  /** A completed prefix after one saved row is a completed prefix one row longer. */
  lemma PrefixAfterSavedRow(store: Store, rows: seq<Row>, next: Store, i: nat, final: Store)
    requires rows != [] && ApplyRow(store, rows[0]) == Saved(next)
    requires i < |rows| && IngestRows(next, rows[1..][..i]) == Outcome(Ok, final)
    ensures IngestRows(store, rows[..i + 1]) == Outcome(Ok, final)
  {
    assert rows[..i + 1] == [rows[0]] + rows[1..][..i];
    IngestCons(store, rows[0], rows[1..][..i]);
  }

  /** The position of the row whose insert a stopped batch refused. */
  lemma {:induction false} RefusedRow(store: Store, rows: seq<Row>) returns (i: nat)
    requires IngestRows(store, rows).status == InsufficientStorage
    ensures i < |rows|
    ensures IngestRows(store, rows[..i]) == Outcome(Ok, IngestRows(store, rows).store)
    ensures ApplyRow(IngestRows(store, rows).store, rows[i]) == Full
    decreases |rows|
  {
    assert rows == [rows[0]] + rows[1..];
    IngestCons(store, rows[0], rows[1..]);
    match ApplyRow(store, rows[0])
    case Full =>
      assert rows[..0] == [];
      i := 0;
    case Saved(next) =>
      var j := RefusedRow(next, rows[1..]);
      PrefixAfterSavedRow(store, rows, next, j, IngestRows(store, rows).store);
      i := j + 1;
  }

  /**
   * A call that stops at capacity has saved exactly the rows before the first
   * refused insert, and that row's key is new to a table holding more than
   * MAX_RECORDS records.
   */
  lemma IngestStopsAtCapacity(store: Store, rows: seq<Row>)
    requires IngestRows(store, rows).status == InsufficientStorage
    ensures exists i :: (0 <= i < |rows|
      && IngestRows(store, rows[..i]) == Outcome(Ok, IngestRows(store, rows).store)
      && ApplyRow(IngestRows(store, rows).store, rows[i]) == Full)
  {
    var i := RefusedRow(store, rows);
  }

  /** Off by one: a table of exactly MAX_RECORDS records still takes a new key, reaching MAX_RECORDS + 1. */
  lemma CapacityAdmitsOneMore(store: Store, row: Row)
    requires StoreInvariant(store) && |store| == MAX_RECORDS
    requires ParseRow(row).Some? && KeyOf(ParseRow(row).value) !in store
    ensures IngestRows(store, [row]).status == Ok
    ensures |IngestRows(store, [row]).store| == MAX_RECORDS + 1
  {
    IngestCons(store, row, []);
    assert [row] + [] == [row];
  }

  /** Beyond MAX_RECORDS a new key ends the call with the table unchanged and the rest of the batch unread. */
  lemma CapacityRefusesNewKey(store: Store, row: Row, rest: seq<Row>)
    requires |store| > MAX_RECORDS
    requires ParseRow(row).Some? && KeyOf(ParseRow(row).value) !in store
    ensures IngestRows(store, [row] + rest) == Outcome(InsufficientStorage, store)
  {
    assert ([row] + rest)[0] == row;
  }

  /** A row whose key is already stored is merged, however full the table is. */
  lemma FullTableStillMerges(store: Store, row: Row)
    requires ParseRow(row).Some? && KeyOf(ParseRow(row).value) in store
    ensures IngestRows(store, [row]).status == Ok
    ensures IngestRows(store, [row]).store.Keys == store.Keys
  {
    assert [row][1..] == [];
  }

  /** The valid flow log of a row, as a set of zero or one element. */
  function RowFlows(row: Row): (fs: set<FlowLog>)
    ensures forall f :: f in fs ==> ValidFlow(f)
  {
    match ParseRow(row)
    case Some(p) => {p}
    case None => {}
  }

  /** The key of a valid row, as a set of zero or one element. */
  function RowKeys(row: Row): set<string> {
    match ParseRow(row)
    case Some(p) => {KeyOf(p)}
    case None => {}
  }

  /** What one row adds to a counter under key k. */
  function Contribution(row: Row, k: string, c: Counter): (n: int)
    ensures 0 <= n <= MAX_INTVAL
  {
    match ParseRow(row)
    case Some(p) => if KeyOf(p) == k then Get(p, c) else 0
    case None => 0
  }

  /** The valid flow logs of a batch. */
  ghost function BatchFlows(rows: seq<Row>): (fs: set<FlowLog>)
    ensures forall f :: f in fs ==> ValidFlow(f)
    decreases |rows|
  {
    if rows == [] then {} else RowFlows(rows[0]) + BatchFlows(rows[1..])
  }

  /** The keys of the valid rows of a batch. */
  ghost function BatchKeys(rows: seq<Row>): set<string>
    decreases |rows|
  {
    if rows == [] then {} else RowKeys(rows[0]) + BatchKeys(rows[1..])
  }

  /** The sum of one counter over the valid rows of a batch that carry key k. */
  ghost function Total(rows: seq<Row>, k: string, c: Counter): (n: int)
    ensures n >= 0
    decreases |rows|
  {
    if rows == [] then 0 else Contribution(rows[0], k, c) + Total(rows[1..], k, c)
  }

  /** A counter of the record stored under key k, zero for an absent key. */
  function StoredCounter(store: Store, k: string, c: Counter): int {
    if k in store then Get(store[k], c) else 0
  }

  /** One saved row adds its contribution to each counter, capped. */
  lemma ApplyRowTotals(store: Store, row: Row, k: string, c: Counter)
    requires StoreInvariant(store)
    requires ApplyRow(store, row).Saved?
    ensures StoreInvariant(ApplyRow(store, row).store)
    ensures k in ApplyRow(store, row).store <==> k in store || k in RowKeys(row)
    ensures StoredCounter(ApplyRow(store, row).store, k, c) == SumSafe(Contribution(row, k, c), StoredCounter(store, k, c))
  {
    if ParseRow(row).Some? {
      var p := ParseRow(row).value;
      UpsertPreservesInvariant(store, p);
      UpsertCounter(store, p, k, c);
    }
  }

  /** One saved flow log adds its counter under its key, capped, and leaves other keys alone. */
  lemma UpsertCounter(store: Store, p: FlowLog, k: string, c: Counter)
    requires StoreInvariant(store) && ValidFlow(p)
    requires UpsertRow(store, p).Saved?
    ensures StoredCounter(UpsertRow(store, p).store, k, c)
      == SumSafe(if k == KeyOf(p) then Get(p, c) else 0, StoredCounter(store, k, c))
  {
    if k != KeyOf(p) {
      assert k in store ==> StoredCounter(store, k, c) <= MAX_INTVAL;
    }
  }

  /** Capping twice is capping once, for non-negative increments. */
  lemma SumSafeAbsorbs(g: int, b: int, t: int)
    requires 0 <= t
    ensures SumSafe(SumSafe(g, b), t) == SumSafe(b, g + t)
  {
  }

  /**
   * After a batch that completes, the table holds the old keys and the keys of
   * the valid rows, and each counter is min(MAX_INTVAL, its old value plus the
   * batch's sum for that key).
   */
  lemma {:induction false} IngestTotals(store: Store, rows: seq<Row>, k: string, c: Counter)
    requires StoreInvariant(store)
    requires IngestRows(store, rows).status == Ok
    ensures k in IngestRows(store, rows).store <==> k in store || k in BatchKeys(rows)
    ensures k in IngestRows(store, rows).store ==>
      Get(IngestRows(store, rows).store[k], c) == SumSafe(StoredCounter(store, k, c), Total(rows, k, c))
    decreases |rows|
  {
    if rows == [] {
    } else {
      assert ApplyRow(store, rows[0]).Saved?;
      var next := ApplyRow(store, rows[0]).store;
      var final := IngestRows(store, rows).store;
      assert IngestRows(next, rows[1..]).store == final;
      assert Total(rows, k, c) == Contribution(rows[0], k, c) + Total(rows[1..], k, c);
      assert BatchKeys(rows) == RowKeys(rows[0]) + BatchKeys(rows[1..]);
      ApplyRowTotals(store, rows[0], k, c);
      IngestTotals(next, rows[1..], k, c);
      SumSafeAbsorbs(Contribution(rows[0], k, c), StoredCounter(store, k, c), Total(rows[1..], k, c));
      if k in final {
        assert Get(final[k], c) == StoredCounter(final, k, c);
      }
    }
  }

  /** A stored record keeps its names and hour through any batch. */
  lemma {:induction false} IngestKeepsIdentity(store: Store, rows: seq<Row>, k: string)
    requires k in store
    ensures SameIdentity(IngestRows(store, rows).store[k], store[k])
    decreases |rows|
  {
    if rows != [] {
      match ApplyRow(store, rows[0])
      case Full =>
      case Saved(next) => IngestKeepsIdentity(next, rows[1..], k);
    }
  }

  /** A record the batch creates takes its names and hour from one of its valid rows with that key. */
  lemma {:induction false} IngestNewRecordSource(store: Store, rows: seq<Row>, k: string) returns (f: FlowLog)
    requires k !in store && k in IngestRows(store, rows).store
    ensures f in BatchFlows(rows) && KeyOf(f) == k
    ensures SameIdentity(IngestRows(store, rows).store[k], f)
    decreases |rows|
  {
    assert rows != [];
    match ApplyRow(store, rows[0])
    case Full =>
      assert false;
    case Saved(next) =>
      if k in next {
        f := ParseRow(rows[0]).value;
        IngestKeepsIdentity(next, rows[1..], k);
      } else {
        f := IngestNewRecordSource(next, rows[1..], k);
      }
  }

  lemma {:induction false} BatchAppend(xs: seq<Row>, ys: seq<Row>, k: string, c: Counter)
    ensures BatchFlows(xs + ys) == BatchFlows(xs) + BatchFlows(ys)
    ensures BatchKeys(xs + ys) == BatchKeys(xs) + BatchKeys(ys)
    ensures Total(xs + ys, k, c) == Total(xs, k, c) + Total(ys, k, c)
    decreases |xs|
  {
    if xs == [] {
      assert xs + ys == ys;
    } else {
      assert (xs + ys)[0] == xs[0];
      assert (xs + ys)[1..] == xs[1..] + ys;
      BatchAppend(xs[1..], ys, k, c);
    }
  }

  /** Valid rows that share a key share their names and hour. */
  ghost predicate CollisionFree(rows: seq<Row>) {
    forall f, g :: f in BatchFlows(rows) && g in BatchFlows(rows) && KeyOf(f) == KeyOf(g) ==> SameIdentity(f, g)
  }

  lemma SharedKeySharedIdentity(rows: seq<Row>, f: FlowLog, g: FlowLog)
    requires CollisionFree(rows) && f in BatchFlows(rows) && g in BatchFlows(rows)
    requires KeyOf(f) == KeyOf(g)
    ensures SameIdentity(f, g)
  {
  }

  /**
   * A batch completes exactly when it has no new key, or when the table has
   * room for all its new keys: the j-th new key is inserted into a table of
   * |store| + j records, and the insert test is count() > MAX_RECORDS.
   */
  lemma {:induction false} CompletesIff(store: Store, rows: seq<Row>)
    ensures var added := BatchKeys(rows) - store.Keys;
      IngestRows(store, rows).status == Ok <==> added == {} || |store| + |added| <= MAX_RECORDS + 1
    decreases |rows|
  {
    if rows != [] {
      var r, b, keys := RowKeys(rows[0]), BatchKeys(rows[1..]), store.Keys;
      var added := BatchKeys(rows) - keys;
      assert BatchKeys(rows) == r + b;
      ApplyRowKeys(store, rows[0]);
      match ApplyRow(store, rows[0])
      case Full =>
        var x :| x in r - keys;
        assert x in added;
      case Saved(next) =>
        CompletesIff(next, rows[1..]);
        assert IngestRows(store, rows).status == IngestRows(next, rows[1..]).status;
        AddedSplits(keys, r, b);
        assert |next| == |store| + |r - keys|;
        assert next.Keys == keys + r;
    }
  }

  /** What one row does to the keys and the size of the table. */
  lemma ApplyRowKeys(store: Store, row: Row)
    ensures |RowKeys(row) - store.Keys| <= 1
    ensures ApplyRow(store, row).Full? <==> RowKeys(row) - store.Keys != {} && |store| > MAX_RECORDS
    ensures ApplyRow(store, row).Saved? ==>
      && ApplyRow(store, row).store.Keys == store.Keys + RowKeys(row)
      && |ApplyRow(store, row).store| == |store| + |RowKeys(row) - store.Keys|
  {
    match ParseRow(row)
    case None =>
    case Some(p) =>
      if KeyOf(p) in store {
        assert RowKeys(row) - store.Keys == {};
      } else {
        assert RowKeys(row) - store.Keys == {KeyOf(p)};
      }
  }

  /** The new keys of a batch: those of its first row, then those of the rest that are still new. */
  lemma AddedSplits(keys: set<string>, r: set<string>, b: set<string>)
    ensures (r + b) - keys == (r - keys) + (b - (keys + r))
    ensures |(r + b) - keys| == |r - keys| + |b - (keys + r)|
  {
    assert (r + b) - keys == (r - keys) + (b - (keys + r));
    assert (r - keys) !! (b - (keys + r));
  }

  /** Whether a batch completes does not depend on the order of its two halves. */
  lemma CompletionCommutes(store: Store, xs: seq<Row>, ys: seq<Row>)
    ensures IngestRows(store, xs + ys).status == Ok <==> IngestRows(store, ys + xs).status == Ok
  {
    BatchAppend(xs, ys, "", Tx);
    BatchAppend(ys, xs, "", Tx);
    var b := BatchKeys(xs + ys);
    assert b == BatchKeys(ys + xs);
    CompletesIff(store, xs + ys);
    CompletesIff(store, ys + xs);
  }

  /** The counters of IngestCommutes: when one order completes, both orders add the same sums. */
  lemma CommutesCounter(store: Store, xs: seq<Row>, ys: seq<Row>, k: string, c: Counter)
    requires StoreInvariant(store)
    requires IngestRows(store, xs + ys).status == Ok
    ensures k in IngestRows(store, xs + ys).store <==> k in IngestRows(store, ys + xs).store
    ensures k in IngestRows(store, xs + ys).store ==>
      Get(IngestRows(store, xs + ys).store[k], c) == Get(IngestRows(store, ys + xs).store[k], c)
  {
    CompletionCommutes(store, xs, ys);
    BatchAppend(xs, ys, k, c);
    BatchAppend(ys, xs, k, c);
    IngestTotals(store, xs + ys, k, c);
    IngestTotals(store, ys + xs, k, c);
  }

  /** The names and hour of IngestCommutes: without collisions both orders agree. */
  lemma CommutesIdentity(store: Store, xs: seq<Row>, ys: seq<Row>, k: string)
    requires CollisionFree(xs + ys)
    requires k in IngestRows(store, xs + ys).store && k in IngestRows(store, ys + xs).store
    ensures SameIdentity(IngestRows(store, xs + ys).store[k], IngestRows(store, ys + xs).store[k])
  {
    if k in store {
      IngestKeepsIdentity(store, xs + ys, k);
      IngestKeepsIdentity(store, ys + xs, k);
    } else {
      var f1 := IngestNewRecordSource(store, xs + ys, k);
      var f2 := IngestNewRecordSource(store, ys + xs, k);
      BatchAppend(xs, ys, k, Tx);
      BatchAppend(ys, xs, k, Tx);
      SharedKeySharedIdentity(xs + ys, f1, f2);
    }
  }

  /** One key of IngestCommutes: present in both tables or in neither, with equal records. */
  lemma CommutesAt(store: Store, xs: seq<Row>, ys: seq<Row>, k: string)
    requires StoreInvariant(store) && CollisionFree(xs + ys)
    requires IngestRows(store, xs + ys).status == Ok
    requires k in IngestRows(store, xs + ys).store || k in IngestRows(store, ys + xs).store
    ensures k in IngestRows(store, xs + ys).store && k in IngestRows(store, ys + xs).store
    ensures IngestRows(store, xs + ys).store[k] == IngestRows(store, ys + xs).store[k]
  {
    CommutesCounter(store, xs, ys, k, Tx);
    CommutesCounter(store, xs, ys, k, Rx);
    CommutesIdentity(store, xs, ys, k);
  }

  /** Two tables with the same keys and the same record under each key are equal. */
  lemma StoresEqual(s1: Store, s2: Store)
    requires forall k :: k in s1 <==> k in s2
    requires forall k :: k in s1 ==> s1[k] == s2[k]
    ensures s1 == s2
  {
    assert s1.Keys == s2.Keys;
  }

  /**
   * Without key collisions the order of two batches does not matter: when one
   * order completes, so does the other, and they leave the same table.
   */
  lemma IngestCommutes(store: Store, xs: seq<Row>, ys: seq<Row>)
    requires StoreInvariant(store) && CollisionFree(xs + ys)
    requires IngestRows(store, xs + ys).status == Ok
    ensures IngestRows(store, xs + ys).store == IngestRows(store, ys + xs).store
  {
    var s1, s2 := IngestRows(store, xs + ys).store, IngestRows(store, ys + xs).store;
    forall k | k in s1 || k in s2
      ensures k in s1 && k in s2 && s1[k] == s2[k]
    {
      CommutesAt(store, xs, ys, k);
    }
    StoresEqual(s1, s2);
  }

  /**
   * Two valid rows with one key, on an empty table: the first is inserted and
   * the second merged into it.
   */
  lemma TwoRowsOneKey(a: Row, b: Row)
    requires ParseRow(a).Some? && ParseRow(b).Some?
    requires KeyOf(ParseRow(a).value) == KeyOf(ParseRow(b).value)
    ensures var fa, fb := ParseRow(a).value, ParseRow(b).value;
      IngestRows(map[], [a, b]) == Outcome(Ok, map[KeyOf(fa) :=
        fa.(bytesTx := SumSafe(fb.bytesTx, fa.bytesTx), bytesRx := SumSafe(fb.bytesRx, fa.bytesRx))])
  {
    var fa := ParseRow(a).value;
    var k := KeyOf(fa);
    IngestCons(map[], a, [b]);
    IngestCons(map[k := fa], b, []);
    assert [a] + [b] == [a, b] && [b] + [] == [b];
  }

  /**
   * With a key collision the order matters: two valid rows with one key but
   * different names or hour leave different tables on an empty table, since
   * the first row's names and hour win.
   */
  lemma OrderMattersOnCollision(a: Row, b: Row)
    requires ParseRow(a).Some? && ParseRow(b).Some?
    requires KeyOf(ParseRow(a).value) == KeyOf(ParseRow(b).value)
    requires !SameIdentity(ParseRow(a).value, ParseRow(b).value)
    ensures IngestRows(map[], [a, b]).store != IngestRows(map[], [b, a]).store
  {
    var k := KeyOf(ParseRow(a).value);
    TwoRowsOneKey(a, b);
    TwoRowsOneKey(b, a);
    assert SameIdentity(IngestRows(map[], [a, b]).store[k], ParseRow(a).value);
    assert SameIdentity(IngestRows(map[], [b, a]).store[k], ParseRow(b).value);
  }

  /** Such rows exist: ("ab","c","v",1) and ("a","bc","v",1). */
  lemma CollidingRowsExist()
    ensures var a, b := RowOf(FlowLog("ab", "c", "v", 10, 20, 1)), RowOf(FlowLog("a", "bc", "v", 1, 2, 1));
      && ParseRow(a).Some? && ParseRow(b).Some?
      && KeyOf(ParseRow(a).value) == KeyOf(ParseRow(b).value)
      && !SameIdentity(ParseRow(a).value, ParseRow(b).value)
  {
    ParseRowOf(FlowLog("ab", "c", "v", 10, 20, 1));
    ParseRowOf(FlowLog("a", "bc", "v", 1, 2, 1));
    HashKeyNotInjective();
  }
}

=== FILE: FlowService.dfy ===
/**
 * The Flowlog table as a mutable object and flows_post as the loop that
 * updates it row by row (fas/views.py lines 111-147).
 */
module FlowService {
  import opened Validator
  import opened KeyDeriver
  import opened Aggregation

  /** The request body after json.loads: a decoding failure, or the decoded rows. */
  datatype Payload = Malformed | Batch(rows: seq<Row>)

  /** The Flowlog table, keyed by hash key. */
  class FlowTable {
    var records: Store

    ghost predicate Valid()
      reads this
    {
      StoreInvariant(records)
    }

    /** An empty table. */
    constructor ()
      ensures Valid() && records == map[]
    {
      records := map[];
    }

    /**
     * flows_post: a malformed body is a bad request that changes nothing;
     * otherwise the rows are applied in order as IngestRows describes,
     * stopping with InsufficientStorage at the first refused insert.
     */
    method FlowsPost(payload: Payload) returns (status: Status)
      requires Valid()
      modifies this
      ensures Valid()
      ensures old(records).Keys <= records.Keys
      ensures payload.Malformed? ==> status == BadRequest && records == old(records)
      ensures payload.Batch? ==> Outcome(status, records) == IngestRows(old(records), payload.rows)
    {
      if payload.Malformed? {
        return BadRequest;
      }
      var values := payload.rows;
      for i := 0 to |values|
        invariant StoreInvariant(records)
        invariant IngestRows(records, values[i..]) == IngestRows(old(records), values)
      {
        var row := values[i];
        IngestFrom(records, values, i);
        var parsed := ParseRow(row);
        if parsed.None? {
          continue;
        }
        var p := parsed.value;
        var hashkey := HashKey(p.srcApp, p.destApp, p.vpcId, p.hour);
        if hashkey in records {
          var obj := records[hashkey];
          obj := obj.(bytesTx := SumSafe(p.bytesTx, obj.bytesTx), bytesRx := SumSafe(p.bytesRx, obj.bytesRx));
          ApplyRowPreservesInvariant(records, row);
          records := records[hashkey := obj];
        } else {
          if |records| > MAX_RECORDS {
            return InsufficientStorage;
          }
          ApplyRowPreservesInvariant(records, row);
          records := records[hashkey := p];
        }
      }
      status := Ok;
    }
  }
}

=== FILE: KeyDeriver.dfy ===
/**
 * The aggregation key of fas/views.py line 133: src_app + dest_app + vpc_id +
 * str(hour), with Python's str on naturals and the int() that reads a digit
 * string back.
 */
module KeyDeriver {
  import opened Validator

  predicate IsDigit(c: char) {
    '0' <= c <= '9'
  }

  predicate AllDigits(s: string) {
    forall i :: 0 <= i < |s| ==> IsDigit(s[i])
  }

  function DigitChar(d: nat): (c: char)
    requires d < 10
    ensures IsDigit(c) && c as int - '0' as int == d
  {
    ('0' as int + d) as char
  }

  function DigitValue(c: char): (d: nat)
    requires IsDigit(c)
    ensures d < 10 && DigitChar(d) == c
  {
    c as int - '0' as int
  }

  /** str(n) for a natural number: its shortest decimal rendering. */
  function NatToDecimal(n: nat): (s: string)
    ensures 0 < |s| && AllDigits(s)
    ensures s[0] == '0' ==> n == 0 && s == "0"
    decreases n
  {
    if n < 10 then [DigitChar(n)] else NatToDecimal(n / 10) + [DigitChar(n % 10)]
  }

  /** int(s) for a string of ASCII digits (leading zeros allowed). */
  function ParseDecimal(s: string): (n: nat)
    requires AllDigits(s)
    ensures n < Pow10(|s|)
    decreases |s|
  {
    if s == [] then 0 else 10 * ParseDecimal(s[..|s| - 1]) + DigitValue(s[|s| - 1])
  }

  /** int(str(n)) == n. */
  lemma {:induction false} DecimalRoundTrip(n: nat)
    ensures ParseDecimal(NatToDecimal(n)) == n
  {
    var s := NatToDecimal(n);
    if n < 10 {
      assert s[..|s| - 1] == [];
    } else {
      assert s[..|s| - 1] == NatToDecimal(n / 10);
      DecimalRoundTrip(n / 10);
    }
  }

  /** The rendering is injective: different hours render differently. */
  lemma DecimalInjective(m: nat, n: nat)
    requires NatToDecimal(m) == NatToDecimal(n)
    ensures m == n
  {
    DecimalRoundTrip(m);
    DecimalRoundTrip(n);
  }

  /** Reading one more digit. */
  lemma DecimalSnoc(s: string, c: char)
    requires AllDigits(s) && IsDigit(c)
    ensures AllDigits(s + [c]) && ParseDecimal(s + [c]) == 10 * ParseDecimal(s) + DigitValue(c)
  {
    assert (s + [c])[..|s|] == s;
  }

  function Pow10(k: nat): (p: nat)
    ensures p > 0
  {
    if k == 0 then 1 else 10 * Pow10(k - 1)
  }

  /** A number below 10^k has at most k digits. */
  lemma {:induction false} DecimalLengthBelow(n: nat, k: nat)
    requires 1 <= k && n < Pow10(k)
    ensures |NatToDecimal(n)| <= k
  {
    if n >= 10 {
      assert Pow10(k) == 10 * Pow10(k - 1);
      DecimalLengthBelow(n / 10, k - 1);
    }
  }

  /** Every accepted integer value has at most ten decimal digits. */
  lemma DecimalLengthOfIntval(n: nat)
    requires n <= MAX_INTVAL
    ensures |NatToDecimal(n)| <= 10
  {
    assert Pow10(10) == 10_000_000_000 by {
      assert Pow10(1) == 10;
      assert Pow10(2) == 100;
      assert Pow10(3) == 1000;
      assert Pow10(4) == 10_000;
      assert Pow10(5) == 100_000;
      assert Pow10(6) == 1_000_000;
      assert Pow10(7) == 10_000_000;
      assert Pow10(8) == 100_000_000;
      assert Pow10(9) == 1_000_000_000;
    }
    DecimalLengthBelow(n, 10);
  }

  /** The hash key: the three names and the decimal hour, with no separator. */
  function HashKey(srcApp: string, destApp: string, vpcId: string, hour: nat): (k: string)
  {
    srcApp + destApp + vpcId + NatToDecimal(hour)
  }

  /** The key of a parsed flow log. */
  function KeyOf(f: FlowLog): string
    requires f.hour >= 0
  {
    HashKey(f.srcApp, f.destApp, f.vpcId, f.hour)
  }

  /** A key splits back into its three names and a digit string that reads as the hour. */
  lemma HashKeySplits(srcApp: string, destApp: string, vpcId: string, hour: nat)
    ensures var k, n := HashKey(srcApp, destApp, vpcId, hour), |srcApp| + |destApp| + |vpcId|;
      && k[..n] == srcApp + destApp + vpcId
      && AllDigits(k[n..]) && ParseDecimal(k[n..]) == hour
  {
    var k, n := HashKey(srcApp, destApp, vpcId, hour), |srcApp| + |destApp| + |vpcId|;
    assert k[n..] == NatToDecimal(hour);
    DecimalRoundTrip(hour);
  }

  /** A valid flow log's key has 4 to 70 characters, so it fits the 100-character key column of the Flowlog table. */
  lemma KeyLength(f: FlowLog)
    requires ValidFlow(f)
    ensures 4 <= |KeyOf(f)| <= 70
  {
    DecimalLengthOfIntval(f.hour);
  }

  /** For fixed names the key determines the hour. */
  lemma HashKeyNamesFixHour(srcApp: string, destApp: string, vpcId: string, h1: nat, h2: nat)
    requires HashKey(srcApp, destApp, vpcId, h1) == HashKey(srcApp, destApp, vpcId, h2)
    ensures h1 == h2
  {
    var prefix := srcApp + destApp + vpcId;
    var k1, k2 := HashKey(srcApp, destApp, vpcId, h1), HashKey(srcApp, destApp, vpcId, h2);
    assert k1[|prefix|..] == NatToDecimal(h1);
    assert k2[|prefix|..] == NatToDecimal(h2);
    DecimalInjective(h1, h2);
  }

  /** Without a separator, shifting a character between names collides. */
  lemma HashKeyNotInjective()
    ensures HashKey("ab", "c", "v", 1) == HashKey("a", "bc", "v", 1)
  {
  }

  /** A collision can even join two different hours: "abv1" + "1" == "abv" + "11". */
  lemma HashKeyCrossesHours()
    ensures HashKey("a", "b", "v1", 1) == HashKey("a", "b", "v", 11)
  {
    assert NatToDecimal(11) == "11";
  }
}

=== FILE: Query.dfy ===
/**
 * The read path of fas/views.py (flows_get): validate the hour parameter and
 * return the stored flow logs of that hour, without their keys.
 */
module Query {
  import opened Wrappers
  import opened Validator
  import opened KeyDeriver
  import opened Aggregation

  /** The answer to a GET: a rejected hour (a bad request), or the matching flow logs in no particular order. */
  datatype QueryResult = InvalidHour | Records(records: set<FlowLog>)

  /** flows_get on the table, given the hour query parameter if present. */
  function FlowsGet(store: Store, hour: Option<string>): (r: QueryResult)
    ensures r.Records? <==>
      hour.Some? && |hour.value| > 0 && AllDigits(hour.value) && ParseDecimal(hour.value) <= MAX_INTVAL
    ensures r.Records? ==>
      forall f :: f in r.records <==> f in store.Values && f.hour == ParseDecimal(hour.value)
  {
    if hour.None? || hour.value == [] || !AllDigits(hour.value)
       || !CheckIntval(Int(ParseDecimal(hour.value))) then
      InvalidHour
    else
      var h := ParseDecimal(hour.value);
      Records(set k | k in store && store[k].hour == h :: store[k])
  }

  /** Under the table invariant no two keys hold the same flow log, so a set loses no record. */
  lemma StoredRecordsDistinct(store: Store, k1: string, k2: string)
    requires StoreInvariant(store) && k1 in store && k2 in store
    requires store[k1] == store[k2]
    ensures k1 == k2
  {
  }

  /** Every hour a record can carry can be asked for: its decimal rendering is accepted and reads back. */
  lemma QueryEveryHour(store: Store, h: int)
    requires 0 <= h <= MAX_INTVAL
    ensures FlowsGet(store, Some(NatToDecimal(h))).Records?
    ensures forall f :: f in FlowsGet(store, Some(NatToDecimal(h))).records <==> f in store.Values && f.hour == h
  {
    DecimalRoundTrip(h);
  }

  /** A table of one record answers an hour query with that record or with nothing. */
  lemma QueryOneRecord(k: string, f: FlowLog, h: int)
    requires 0 <= h <= MAX_INTVAL
    ensures FlowsGet(map[k := f], Some(NatToDecimal(h))) == Records(if f.hour == h then {f} else {})
  {
    var m := map[k := f];
    QueryEveryHour(m, h);
    assert k in m && m[k] == f;
    forall g | g in m.Values
      ensures g == f
    {
      var j :| j in m && m[j] == g;
    }
  }

  /** A missing, empty, signed or non-numeric hour is a bad request. */
  lemma QueryRejectsMalformedHour(store: Store)
    ensures FlowsGet(store, None) == InvalidHour
    ensures FlowsGet(store, Some("")) == InvalidHour
    ensures FlowsGet(store, Some("-1")) == InvalidHour
    ensures FlowsGet(store, Some("abc")) == InvalidHour
  {
    assert !IsDigit("-1"[0]) && !IsDigit("abc"[0]);
  }

  /** The hour limit is MAX_INTVAL: its decimal rendering is accepted, that of the next integer is not. */
  lemma QueryHourLimit(store: Store)
    ensures FlowsGet(store, Some(NatToDecimal(MAX_INTVAL))).Records?
    ensures FlowsGet(store, Some(NatToDecimal(MAX_INTVAL + 1))) == InvalidHour
  {
    DecimalRoundTrip(MAX_INTVAL);
    DecimalRoundTrip(MAX_INTVAL + 1);
  }

  /** int("007") == int("7") == 7. */
  lemma LeadingZerosValue()
    ensures AllDigits("007") && AllDigits("7")
    ensures ParseDecimal("007") == 7 && ParseDecimal("7") == 7
  {
    DecimalSnoc("", '0');
    DecimalSnoc("0", '0');
    DecimalSnoc("00", '7');
    DecimalSnoc("", '7');
    assert "" + ['7'] == "7" && "00" + ['7'] == "007";
  }

  /** Leading zeros are accepted: "007" asks for hour 7. */
  lemma QueryLeadingZeros(store: Store)
    ensures FlowsGet(store, Some("007")) == FlowsGet(store, Some("7"))
  {
    LeadingZerosValue();
  }

  /** A valid row's key is among its batch's keys. */
  lemma {:induction false} BatchFlowKey(rows: seq<Row>, p: FlowLog)
    requires p in BatchFlows(rows)
    ensures KeyOf(p) in BatchKeys(rows)
    decreases |rows|
  {
    if p !in RowFlows(rows[0]) {
      BatchFlowKey(rows[1..], p);
    }
  }

  /** The record a batch leaves for a valid row: its names and hour with the capped sums of its key. */
  ghost function Aggregated(rows: seq<Row>, p: FlowLog): FlowLog
    requires p.hour >= 0
  {
    p.(bytesTx := SumSafe(0, Total(rows, KeyOf(p), Tx)), bytesRx := SumSafe(0, Total(rows, KeyOf(p), Rx)))
  }

  /**
   * After a collision-free batch that completes on an empty table, querying a
   * valid row's hour returns one record with its names and hour and, for
   * counters, the capped sums over the rows with its key.
   */
  lemma QueryAfterIngest(rows: seq<Row>, p: FlowLog)
    requires CollisionFree(rows) && p in BatchFlows(rows)
    requires IngestRows(map[], rows).status == Ok
    ensures var q := FlowsGet(IngestRows(map[], rows).store, Some(NatToDecimal(p.hour)));
      q.Records? && Aggregated(rows, p) in q.records
  {
    var store := IngestRows(map[], rows).store;
    var k := KeyOf(p);
    BatchFlowKey(rows, p);
    IngestTotals(map[], rows, k, Tx);
    IngestTotals(map[], rows, k, Rx);
    var f := IngestNewRecordSource(map[], rows, k);
    SharedKeySharedIdentity(rows, f, p);
    assert store[k] == Aggregated(rows, p);
    QueryEveryHour(store, p.hour);
  }

  /**
   * After a collision-free batch that completes on an empty table, the answer
   * for an hour is exactly the aggregated records of the valid rows of that
   * hour: nothing is missing and nothing else is returned.
   */
  lemma QueryAfterIngestExact(rows: seq<Row>, h: int)
    requires CollisionFree(rows) && IngestRows(map[], rows).status == Ok
    requires 0 <= h <= MAX_INTVAL
    ensures FlowsGet(IngestRows(map[], rows).store, Some(NatToDecimal(h)))
      == Records(set p | p in BatchFlows(rows) && p.hour == h :: Aggregated(rows, p))
  {
    var store := IngestRows(map[], rows).store;
    var q := FlowsGet(store, Some(NatToDecimal(h)));
    var expected := set p | p in BatchFlows(rows) && p.hour == h :: Aggregated(rows, p);
    QueryEveryHour(store, h);
    forall g | g in q.records
      ensures g in expected
    {
      var k :| k in store && store[k] == g;
      var f := IngestNewRecordSource(map[], rows, k);
      IngestTotals(map[], rows, k, Tx);
      IngestTotals(map[], rows, k, Rx);
      assert g == Aggregated(rows, f);
    }
    forall p | p in BatchFlows(rows) && p.hour == h
      ensures Aggregated(rows, p) in q.records
    {
      QueryAfterIngest(rows, p);
    }
    assert q.records == expected;
  }

  /** Ingesting one valid row into an empty table and querying its hour returns exactly that row. */
  lemma SingleRowRoundTrip(row: Row)
    requires ParseRow(row).Some?
    ensures var p := ParseRow(row).value;
      FlowsGet(IngestRows(map[], [row]).store, Some(NatToDecimal(p.hour))) == Records({p})
  {
    var p := ParseRow(row).value;
    IngestCons(map[], row, []);
    assert [row] + [] == [row];
    var store := IngestRows(map[], [row]).store;
    assert store == map[KeyOf(p) := p];
    QueryOneRecord(KeyOf(p), p, p.hour);
  }

  /**
   * The example message of fas/views.py: two rows of the same flow in hour 1
   * come back as one record with the byte counts added.
   */
  lemma ExampleMessage()
    ensures var rows := [RowOf(FlowLog("foo", "bar", "vpc-0", 100, 500, 1)),
                         RowOf(FlowLog("foo", "bar", "vpc-0", 200, 1000, 1))];
      var r := IngestRows(map[], rows);
      && r.status == Ok
      && FlowsGet(r.store, Some("1")) == Records({FlowLog("foo", "bar", "vpc-0", 300, 1500, 1)})
  {
    var f1, f2 := FlowLog("foo", "bar", "vpc-0", 100, 500, 1), FlowLog("foo", "bar", "vpc-0", 200, 1000, 1);
    ParseRowOf(f1);
    ParseRowOf(f2);
    TwoRowsOneKey(RowOf(f1), RowOf(f2));
    QueryOneRecord(KeyOf(f1), FlowLog("foo", "bar", "vpc-0", 300, 1500, 1), 1);
    assert NatToDecimal(1) == "1";
  }

  /** The decimal renderings of the hours the examples use. */
  lemma SmallDecimals()
    ensures NatToDecimal(1) == "1" && NatToDecimal(11) == "11"
  {
    assert NatToDecimal(1) == [DigitChar(1)];
    assert NatToDecimal(11) == NatToDecimal(1) + [DigitChar(1)];
  }

  /** Ingesting ("a","b","v1", hour 1) then ("a","b","v", hour 11) leaves one hour-1 record with both rows' bytes. */
  lemma HourCollisionMerges()
    ensures var f1, f2 := FlowLog("a", "b", "v1", 100, 200, 1), FlowLog("a", "b", "v", 5, 6, 11);
      IngestRows(map[], [RowOf(f1), RowOf(f2)]) == Outcome(Ok, map[KeyOf(f1) := FlowLog("a", "b", "v1", 105, 206, 1)])
  {
    var f1, f2 := FlowLog("a", "b", "v1", 100, 200, 1), FlowLog("a", "b", "v", 5, 6, 11);
    ParseRowOf(f1);
    ParseRowOf(f2);
    HashKeyCrossesHours();
    TwoRowsOneKey(RowOf(f1), RowOf(f2));
  }

  /**
   * A key collision across hours: ("a","b","v1", hour 1) and ("a","b","v",
   * hour 11) share the key "abv11", so the second row's bytes are added to the
   * hour-1 record and a query for hour 11 finds nothing.
   */
  lemma HourCollisionHidesBytes()
    ensures var rows := [RowOf(FlowLog("a", "b", "v1", 100, 200, 1)),
                         RowOf(FlowLog("a", "b", "v", 5, 6, 11))];
      var r := IngestRows(map[], rows);
      && r.status == Ok
      && FlowsGet(r.store, Some("11")) == Records({})
      && FlowsGet(r.store, Some("1")) == Records({FlowLog("a", "b", "v1", 105, 206, 1)})
  {
    HourCollisionMerges();
    var k := KeyOf(FlowLog("a", "b", "v1", 100, 200, 1));
    var merged := FlowLog("a", "b", "v1", 105, 206, 1);
    QueryOneRecord(k, merged, 1);
    QueryOneRecord(k, merged, 11);
    SmallDecimals();
  }
}

=== FILE: Validator.dfy ===
/**
 * Validation of one decoded flow-log row: the limits of fas/views.py and its
 * check_intval, check_slen and parse_row.
 */
module Validator {
  import opened Wrappers

  /** Limits of the service (fas/views.py lines 37-39). */
  const MAX_INTVAL: int := 0x7FFF_FFFF
  const MAX_APP_LEN: int := 20
  const MAX_RECORDS: int := 10000

  /** The six message field names, in message order. */
  const SRC_APP: string := "src_app"
  const DEST_APP: string := "dest_app"
  const VPC_ID: string := "vpc_id"
  const BYTES_TX: string := "bytes_tx"
  const BYTES_RX: string := "bytes_rx"
  const HOUR: string := "hour"

  /** A decoded JSON value as far as the validator distinguishes it. */
  datatype Value = Str(s: string) | Int(n: int) | Other

  /** One decoded flow-log object: field name to value. */
  type Row = map<string, Value>

  /**
   * A flow log: the six message fields. It is what parse_row returns and,
   * keyed by its hash key, what the store holds (fas/models.py).
   */
  datatype FlowLog = FlowLog(srcApp: string, destApp: string, vpcId: string,
                             bytesTx: int, bytesRx: int, hour: int)

  /** The message field constraints, stated field by field. */
  predicate ValidFlow(f: FlowLog) {
    && 1 <= |f.srcApp| <= 20 && 1 <= |f.destApp| <= 20 && 1 <= |f.vpcId| <= 20
    && 0 <= f.bytesTx < 0x8000_0000
    && 0 <= f.bytesRx < 0x8000_0000
    && 0 <= f.hour < 0x8000_0000
  }

  /** The row carries all six fields of f, each with f's value. */
  predicate Carries(row: Row, f: FlowLog) {
    && SRC_APP in row && row[SRC_APP] == Str(f.srcApp)
    && DEST_APP in row && row[DEST_APP] == Str(f.destApp)
    && VPC_ID in row && row[VPC_ID] == Str(f.vpcId)
    && BYTES_TX in row && row[BYTES_TX] == Int(f.bytesTx)
    && BYTES_RX in row && row[BYTES_RX] == Int(f.bytesRx)
    && HOUR in row && row[HOUR] == Int(f.hour)
  }

  /** check_intval: an integer in the signed 32-bit non-negative range. */
  function CheckIntval(v: Value): (r: bool)
    ensures r <==> v.Int? && 0 <= v.n < 0x8000_0000
  {
    v.Int? && v.n >= 0 && v.n <= MAX_INTVAL
  }

  /** check_slen: a string of 1 to MAX_APP_LEN characters. */
  function CheckSlen(v: Value): (r: bool)
    ensures r <==> v.Str? && 1 <= |v.s| <= 20
  {
    v.Str? && 0 < |v.s| <= MAX_APP_LEN
  }

  /**
   * parse_row: None when a field is missing or a check fails, otherwise the
   * six values unchanged.
   */
  function ParseRow(row: Row): (r: Option<FlowLog>)
    ensures r.Some? ==> ValidFlow(r.value) && Carries(row, r.value)
    ensures forall f :: ValidFlow(f) && Carries(row, f) ==> r == Some(f)
  {
    if !(SRC_APP in row && DEST_APP in row && VPC_ID in row
         && BYTES_TX in row && BYTES_RX in row && HOUR in row) then None
    else
      var srcApp, destApp, vpcId := row[SRC_APP], row[DEST_APP], row[VPC_ID];
      var bytesTx, bytesRx, hour := row[BYTES_TX], row[BYTES_RX], row[HOUR];
      if !(CheckSlen(srcApp) && CheckSlen(destApp) && CheckSlen(vpcId)) then None
      else if !(CheckIntval(bytesTx) && CheckIntval(bytesRx) && CheckIntval(hour)) then None
      else Some(FlowLog(srcApp.s, destApp.s, vpcId.s, bytesTx.n, bytesRx.n, hour.n))
  }

  /** The message object of a flow log, as the read API renders it. */
  function RowOf(f: FlowLog): Row {
    map[SRC_APP := Str(f.srcApp), DEST_APP := Str(f.destApp), VPC_ID := Str(f.vpcId),
        BYTES_TX := Int(f.bytesTx), BYTES_RX := Int(f.bytesRx), HOUR := Int(f.hour)]
  }

  /** Parsing the message object of a flow log gives it back exactly when it is valid. */
  lemma ParseRowOf(f: FlowLog)
    ensures ParseRow(RowOf(f)) == (if ValidFlow(f) then Some(f) else None)
  {
    assert Carries(RowOf(f), f);
  }

  /** A row missing any one of the six fields is rejected. */
  lemma ParseRowNeedsEveryField(row: Row, field: string)
    requires field in [SRC_APP, DEST_APP, VPC_ID, BYTES_TX, BYTES_RX, HOUR]
    requires field !in row
    ensures ParseRow(row) == None
  {
  }

  /** The edges of the accepted ranges: 20 and 2^31-1 pass, 21, 0 characters, -1 and 2^31 fail. */
  lemma ValidatorBoundaries()
    ensures CheckSlen(Str("aaaaaaaaaaaaaaaaaaaa")) && !CheckSlen(Str("aaaaaaaaaaaaaaaaaaaaa"))
    ensures !CheckSlen(Str("")) && !CheckSlen(Int(5))
    ensures CheckIntval(Int(MAX_INTVAL)) && !CheckIntval(Int(MAX_INTVAL + 1))
    ensures CheckIntval(Int(0)) && !CheckIntval(Int(-1)) && !CheckIntval(Str("1"))
  {
  }
}

=== FILE: Wrappers.dfy ===
/** The optional value used where the service answers "nothing" (Python's None). */
module Wrappers {
  datatype Option<+T> = None | Some(value: T)
}
